=== FILE: README.md ===
# Zaeon landing page: onboarding sequencer, menu picker and glyph-rain skeleton

A Dafny model of the two pieces of sequential logic in the Zaeon landing page.

1. **The hero page** (`components/sub/hero-content.tsx`). This covers:
   - the four-item menu and the four-role carousel, both wrapping around;
   - the onboarding modal, which has a role-dependent list of 4 or 5 steps;
   - one validator per step, and the `canSubmit` conjunction;
   - keyboard navigation (Enter advances or submits, Backspace/Delete retreats, Escape closes);
   - the reset run when the modal opens;
   - the submission, which leaves the page with a list of query pairs.

   Each handler is a pure function of an immutable record. `Hero.Dispatch` composes them into one state machine over key presses, clicks and hovers.
2. **The integer skeleton of the glyph-rain background** (`components/main/star-background.tsx`). This covers:
   - the glyph source string built by `buildStreamSource`;
   - the column-count formula;
   - the index arithmetic that keeps every palette index and every offset into the glyph source in range, at mount, on recycling and on resize;
   - which trail rows one frame draws.

   Every `Math.random()` value is an input in `[0, 1)`.

Modules:

- `Text` (`text.dfy`) holds string predicates:
  - the whitespace set that `trim` removes and `\s` matches;
  - `trim`, with a uniqueness characterisation;
  - the `\D`-deleting digit filter;
  - the unanchored e-mail pattern `/\S+@\S+\.\S+/`. `EmailShape` is the regex's match relation over positions. `ScanEmail` decides it in one pass, like a regex automaton, and is proved equivalent to it.
- `Keys` (`keys.dfy`) lists the `KeyboardEvent.code` values the page distinguishes.
- `Onboarding` (`onboarding.dfy`) models `OnboardModal`.
- `Hero` (`hero.dfy`) models `HeroContent`: the window key listener, the click and hover handlers, and the composition with the modal.
- `GlyphRain` (`rain.dfy`) models the renderer's integer skeleton.

Behaviour of the page worth noting:

- **Closing the modal does not discard the draft.** The draft is cleared only when the modal next opens (hero-content.tsx:130-137). `Hero.Lift` therefore keeps the draft on close.
- **The carousel stays open under the modal.** Choosing a role sets `onboardOpen` but leaves `pickerOpen` true (hero-content.tsx:408-414). After the modal closes, the carousel is still showing.
- **The identifier check does not depend on the role.** It is `trim().length > 3` for every role. The placeholders hint at per-role formats, but nothing checks them.
- **Lengths are UTF-16 code units.** The identifier and name checks use JavaScript's `length`, which counts an astral code point (an emoji, say) as two units. Two emoji already make a valid identifier (`Onboarding.AstralIdValid`).
- **The phone check ignores trimming.** `trim()` before deleting non-digits changes nothing (`Text.DigitsIgnoreTrim`), so the phone check counts every decimal digit in the raw value.

## Model

| member | source | states |
|---|---|---|
| Text.Trim | components/sub/hero-content.tsx:120-123 | `trim` never lengthens a value, and what it returns neither starts nor ends with whitespace |
| Text.TrimUnique | components/sub/hero-content.tsx:120-121 | whatever whitespace surrounds a middle part that neither starts nor ends with whitespace, `trim` returns exactly that middle part |
| Text.TrimSplit | components/sub/hero-content.tsx:120-121 | every string is its trimmed part with whitespace only before and after it |
| Text.TrimIdempotent | components/sub/hero-content.tsx:120-121 | trimming an already trimmed value changes nothing |
| Text.Utf16Length | components/sub/hero-content.tsx:120-121 | JavaScript's `length` lies between the number of code points and twice it, and equals the number of code points exactly when every code point is in the Basic Multilingual Plane |
| Text.Utf16LengthOfChar | components/sub/hero-content.tsx:120-121 | a code point above U+FFFF counts as two code units and any other as one |
| Text.Utf16LengthAppend | components/sub/hero-content.tsx:120-121 | the code units of a concatenation are the code units of its parts added up, so with the single-character case the count is fixed on every string |
| Text.Digits | components/sub/hero-content.tsx:123 | deleting non-digits leaves only decimal digits, keeps every digit as often as it occurs and drops every other character, never lengthens the value, and keeps a value made only of digits unchanged |
| Text.DigitsOfChar | components/sub/hero-content.tsx:123 | a single character is kept when it is a decimal digit and deleted otherwise |
| Text.DigitsAppend | components/sub/hero-content.tsx:123 | deleting non-digits from a concatenation is concatenating the parts with their non-digits deleted |
| Text.DigitsIgnoreTrim | components/sub/hero-content.tsx:123 | `celular.trim().replace(/\D/g, "")` equals `celular.replace(/\D/g, "")` for every value |
| Text.EmailShape | components/sub/hero-content.tsx:122 | a value the pattern matches has at least 5 characters, contains an `@` and a `.`, and is not all whitespace |
| Text.EmailShapeMinimal | components/sub/hero-content.tsx:122 | the unanchored pattern matches iff some `@` has a non-space character before it, and a non-space run after it up to a `.` that is followed by a non-space character |
| Text.ScanEmail | components/sub/hero-content.tsx:122 | a single left-to-right pass answers true exactly when some substring matches `\S+@\S+\.\S+` |
| Onboarding.Steps | components/sub/hero-content.tsx:108-114 | the list has 4 steps for `pesquisador` and 5 otherwise, and the `ensino` step can only sit at index 4 |
| Onboarding.LastIndex | components/sub/hero-content.tsx:115 | `lastIndex` is 3 exactly for `pesquisador` and 4 exactly for the other roles |
| Onboarding.StepsShape | components/sub/hero-content.tsx:106-115 | the steps are `id, nome, email, celular` in that order; `ensino` is present iff the role is not `pesquisador`; no key repeats |
| Onboarding.IdValid | components/sub/hero-content.tsx:120 | the identifier validates exactly when its trimmed value has more than 3 code points, or 3 of which one is above U+FFFF, or 2 both above U+FFFF, i.e. more than 3 UTF-16 units |
| Onboarding.NomeValid | components/sub/hero-content.tsx:121 | the name validates exactly when its trimmed value has more than 2 code points, or 2 of which one is above U+FFFF, i.e. more than 2 UTF-16 units |
| Onboarding.EmailValid | components/sub/hero-content.tsx:122 | the e-mail validates iff some `@` has a non-space character before it and a non-space run after it up to a `.` followed by a non-space character |
| Onboarding.CelularValid | components/sub/hero-content.tsx:123 | the phone validates iff the raw value holds at least 10 decimal digits |
| Onboarding.Validate | components/sub/hero-content.tsx:117-126 | index 0 checks the trimmed id is longer than 3 UTF-16 units, index 1 the trimmed name longer than 2, index 2 the e-mail pattern, index 3 at least 10 digits, index 4 is valid exactly when the role has the `ensino` step; every other index is invalid |
| Onboarding.CanSubmit | components/sub/hero-content.tsx:128 | `canSubmit` holds iff the id, name, e-mail and phone validators all hold, for every role |
| Onboarding.Reset | components/sub/hero-content.tsx:130-137 | opening leaves every text field empty, `ensino` at `sim` and the step at 0 |
| Onboarding.ResetState | components/sub/hero-content.tsx:130-137 | after opening, the draft is in range for any role, the current step is the identifier, and neither that step nor the submission validates |
| Onboarding.ResetForgets | components/sub/hero-content.tsx:130-137 | the draft after opening does not depend on the previous session's values |
| Onboarding.ApplyEdit | components/sub/hero-content.tsx:275-325 | typing into a field's input replaces that field and no other, and never moves the step; the radio group changes only `ensino` |
| Onboarding.Query | components/sub/hero-content.tsx:198-205 | the query keys are `role, id, nome, email, celular`, then `ensino`, in that order; there is one pair per step plus one |
| Onboarding.QueryRoundTrip | components/sub/hero-content.tsx:198-206 | reading the query back gives the role and the four text values unchanged, and the `ensino` answer exactly when the role is not `pesquisador` |
| Onboarding.HandleKey | components/sub/hero-content.tsx:164-209 | Escape and only Escape closes; a submission happens only on Enter at the last step with `canSubmit`, and carries the draft's query; every other outcome changes at most the step; any key other than Enter, Escape, Backspace and Delete changes nothing |
| Onboarding.AdvanceOnlyPastValid | components/sub/hero-content.tsx:164-209 | whatever the key, the step moves forward only on Enter, by exactly one, and only past a step whose validator holds |
| Onboarding.ClickContinue | components/sub/hero-content.tsx:333-345 | the Continuar button submits iff `canSubmit`, with the draft's query, and otherwise does nothing |
| Onboarding.EnterBlockedWhenInvalid | components/sub/hero-content.tsx:191-193 | Enter on a step whose validator fails leaves the draft unchanged |
| Onboarding.EnterAdvances | components/sub/hero-content.tsx:195-196 | Enter on a valid step below `lastIndex` moves the step forward by exactly one |
| Onboarding.EnterSubmitsIff | components/sub/hero-content.tsx:191-207 | Enter submits iff the step is `lastIndex` and `canSubmit` holds |
| Onboarding.EnterOnlyPastValid | components/sub/hero-content.tsx:191-196 | whenever Enter changes the step, the step it leaves validated and the new step is the next one |
| Onboarding.Retreat | components/sub/hero-content.tsx:173-189 | Backspace/Delete never closes or submits and changes only the step; the step either stays or moves to `max(0, step - 1)`, and it moves only when the current field's raw value is empty or the step is `ensino` |
| Onboarding.RetreatIff | components/sub/hero-content.tsx:173-189 | Backspace/Delete moves to `max(0, step - 1)` iff the current field's raw value is empty or the step is `ensino`, and otherwise changes nothing |
| Onboarding.RetreatAtFirstStep | components/sub/hero-content.tsx:187 | at step 0 Backspace/Delete change nothing |
| Onboarding.HandleKeyKeepsInv | components/sub/hero-content.tsx:164-209 | no key press moves the step outside `[0, lastIndex]` |
| Onboarding.LastStepIsNotEnough | components/sub/hero-content.tsx:191-207 | a `pesquisador` draft at the last step with a valid phone, but whose identifier was emptied again, validates its current step yet does not submit on Enter |
| Onboarding.PesquisadorScenario | components/sub/hero-content.tsx:191-206 | a `pesquisador` with id `0000-0001-2345-6789`, name `Ana Silva`, e-mail `ana@x.com` and phone `11999999999` can submit at step 3, and the query has no `ensino` pair |
| Onboarding.AstralIdValid | components/sub/hero-content.tsx:120-121 | an identifier of two emoji validates although it has only two code points, and so does a name of one emoji and one letter |
| Onboarding.ShortIdBlocks | components/sub/hero-content.tsx:120 | an `estudante` id of `12` never validates, so Enter at step 0 is blocked |
| Hero.JsRem | components/sub/hero-content.tsx:400 | JavaScript's `%` lies strictly between `-b` and `b`, differs from the dividend by a multiple of `b`, agrees with the mathematical remainder on non-negative dividends, and is never positive on negative ones; these fix the truncated remainder, e.g. `-1 % 4 == -1` |
| Hero.Prev | components/sub/hero-content.tsx:425 | `(i - 1 + n) % n` stays in `[0, n)` and steps back one place, from 0 to `n - 1` |
| Hero.Next | components/sub/hero-content.tsx:430 | `(i + 1) % n` stays in `[0, n)` and steps forward one place, from `n - 1` to 0 |
| Hero.WrapInverse | components/sub/hero-content.tsx:400-405 | one step forward then one back, or back then forward, is the identity |
| Hero.OpenOnboarding | components/sub/hero-content.tsx:408-413 | choosing the displayed role (by Enter here or by a click at lines 522-526) binds that role, opens the modal with every field empty at step 0, leaves the menu and carousel untouched, and keeps the page in range |
| Hero.WindowKey | components/sub/hero-content.tsx:394-443 | while onboarding is open nothing changes; the listener navigates only from the closed carousel, on an in-range item other than "Nova conta", to that item's `href`; in the carousel every key but Left/A, Right/D, Enter and Escape, and in the menu every key but Up/W, Down/S and Enter, changes nothing |
| Hero.Dispatch | components/sub/hero-content.tsx:485-562 | an event outside the modal that does not open it keeps the draft; opening it binds the carousel's role and resets the draft; while it is open, the menu, carousel and chosen role are frozen; with the modal closed, hovering item `i` highlights it, the "Nova conta" card opens the carousel, the chevrons turn the open carousel back and forward, the role label opens onboarding for the displayed role, and carousel and modal controls do nothing while their panel is not shown |
| Hero.Lift | components/sub/hero-content.tsx:635 | a modal outcome leaves the page iff it is a submission, and then for `/signup` with its query; closing clears only `onboardOpen` and keeps the draft; nothing else of the page changes |
| Hero.DispatchKeepsInv | components/sub/hero-content.tsx:164-562 | every well-formed event keeps the menu index, the carousel index and the draft's step in range |
| Hero.Run | components/sub/hero-content.tsx:384-389 | no events leave the initial state as it is, and one event acts as that event's handler |
| Hero.RunAppend | components/sub/hero-content.tsx:384-389 | reacting to two event sequences in turn is reacting to their concatenation, and nothing happens after the page is left |
| Hero.RunKeepsInv | components/sub/hero-content.tsx:384-389 | any sequence of well-formed events from an in-range state ends in an in-range state |
| Hero.ReachableInv | components/sub/hero-content.tsx:384-389 | every state reachable from the page's initial state is in range |
| Hero.WindowIgnoredWhileOnboarding | components/sub/hero-content.tsx:395 | while the onboarding modal is open, the window key handler changes nothing |
| Hero.MenuArrows | components/sub/hero-content.tsx:423-432 | Up/W and Down/S move the menu highlight one place with wrap-around; Left and Right do nothing in the menu |
| Hero.PickerArrows | components/sub/hero-content.tsx:398-407 | Left/A and Right/D turn the carousel one place with wrap-around |
| Hero.PickerEnterAndEscape | components/sub/hero-content.tsx:408-419 | Enter in the carousel binds the displayed role and opens onboarding with a reset draft; Escape closes the carousel without opening onboarding |
| Hero.MenuEnter | components/sub/hero-content.tsx:433-441 | Enter on "Nova conta" opens the carousel and never navigates; Enter on any other item navigates to its `href`, which is never `/signup` |
| Hero.SignupOnlyWhenValid | components/sub/hero-content.tsx:191-207 | the page leaves for `/signup` only from the open modal with `canSubmit` holding, carrying the draft's query |
| GlyphRain.BuildStreamSource | components/main/star-background.tsx:18-28 | pushing each word and its markers, then joining, gives the concatenation over i of word i, then `₿` if i%3==1, `Ξ` if i%5==2 and `ICP` if i%7==3 |
| GlyphRain.StreamSourceLength | components/main/star-background.tsx:29 | `STREAM_SOURCE` has 62 characters |
| GlyphRain.ChunksLengthOfPairs | components/main/star-background.tsx:5-8 | 21 two-character words give pieces of 62 characters in total |
| GlyphRain.RoundRatio | components/main/star-background.tsx:51 | `Math.round` of a non-negative ratio is the integer within half a unit of it, ties rounding up |
| GlyphRain.ColWidth | components/main/star-background.tsx:51 | `Math.round(12 * 1.05)` is 13 |
| GlyphRain.ColumnCount | components/main/star-background.tsx:52 | the column count is at least 8; it is exactly 8 iff the width is below 195; above 8 it is the number of whole 13-pixel columns minus 6 |
| GlyphRain.ColumnCountMonotone | components/main/star-background.tsx:112 | a wider surface never gets fewer columns |
| GlyphRain.Speed | components/main/star-background.tsx:57 | every speed lies in `[0.5, 0.82)` |
| GlyphRain.SpeedPeriodic | components/main/star-background.tsx:57 | columns i and i+7 get the same speed |
| GlyphRain.InitColumn | components/main/star-background.tsx:55-60 | a new column's palette index lies in `[0, 9)` and is `i`, `i+1` or `i+2` mod 9; its offset lies in `[0, len)`; its speed is its band's |
| GlyphRain.InitColumns | components/main/star-background.tsx:55-60 | the column array has one column per draw, each with in-range indices and the speed of its position; column `j` is the one built from position `j` and draw `j` |
| GlyphRain.Resize | components/main/star-background.tsx:110-118 | after a resize the column count is the formula's value, there are that many columns, column `j` is built from position `j` and draw `j` (speed band of `j % 7`, colour `j`, `j+1` or `j+2` mod 9), and every index is in range |
| GlyphRain.ResizeForgets | components/main/star-background.tsx:113-118 | the state after a resize does not depend on the state before it |
| GlyphRain.Jump | components/main/star-background.tsx:98 | `Math.floor(5 + r * 25)` lies in `[5, 29]` |
| GlyphRain.Recycle | components/main/star-background.tsx:96-101 | a recycled column keeps its speed; its offset moves forward by the jump modulo the source length and stays in `[0, len)`; its colour stays in `[0, 9)` and is unchanged unless the coin exceeds 0.7 |
| GlyphRain.RecycleKeepsRainOk | components/main/star-background.tsx:96-101 | recycling any column of an in-range renderer state leaves it in range |
| GlyphRain.TrailRows | components/main/star-background.tsx:80-83 | one frame draws at most 24 glyphs per column, at exactly the depths whose pixel height lies in `[-12, height + 12]`, in increasing order |

## Left out

- All JSX markup, Tailwind class strings, framer-motion animations, and the `Image` component. They are presentation only.
- Hero.Dispatch: a click on one of the menu's `Link` cards (hero-content.tsx:580-588) navigates to `/signin`, `/settings` or `/manual`; no event models that click, so only the keyboard route to those pages (`Hero.WindowKey`) is modelled. Their `onMouseEnter` highlight is the `Hover` event.
- The role labels and placeholders of `REQUIRED_BY_ROLE` (hero-content.tsx:29-34) are display text that no check reads.
- The focus effect and its `setTimeout` (hero-content.tsx:150-162, 142) are cosmetic timer-driven DOM side effects.
- The `document.body.style.overflow` save/restore (hero-content.tsx:139-146, 449-456) is a DOM side effect tied to the modal's lifetime, not page state.
- `window.location.assign` and the `URLSearchParams` encoding. Leaving the page is the `Hero.Go` effect, which carries the path and the list of key/value pairs. The application/x-www-form-urlencoded serialisation (section 5.2 of the WHATWG URL Standard) is not modelled.
- React's render and effect scheduling: the draft reset performed by the modal's opening effect happens in the same transition that opens the modal.
- Hero.Dispatch: while the modal is open, every key press is delivered to the modal's handler. The page does not enforce this: it has no focus trap, and the page behind the modal only gets `aria-hidden` and `pointer-events: none` (hero-content.tsx:558-562), which do not stop keyboard focus. Tab can move focus to the carousel chevrons (hero-content.tsx:510-519, 538-547) or the menu links. There the window listener returns early (hero-content.tsx:395), so Enter or Space turns the carousel or follows a link to `/signin`, `/settings` or `/manual` while the modal is open, and Escape does not close the modal. The clauses of `Hero.Dispatch` that freeze the carousel, and `Hero.SignupOnlyWhenValid`'s claim that `/signup` is the only exit from the open modal, hold only for keys that reach the modal.
- Hero.Dispatch: the `onMouseEnter` hover handlers are modelled only as `Hover(i)` events on the four rendered items.
- Canvas drawing, device-pixel-ratio scaling (`applyDPR`), per-glyph alpha interpolation, `requestAnimationFrame` and `ResizeObserver`. These are floating-point rendering and host scheduling.
- The fractional head row `col.y`, its motion by `speed`, its random restart height, and the float-based `charIndex`. Without `col.y`, the recycle condition (`headY > height + 24 * 12`) is not modelled either: `GlyphRain.Recycle` is the update applied whenever the renderer recycles a column.
- `Math.random()` values are reals in `[0, 1)`, and the products and floors use exact real arithmetic instead of IEEE-754 doubles. Binary rounding is not modelled.
- Onboarding.Validate: a JavaScript string may hold an unpaired surrogate code unit, but a Dafny `char` is a Unicode scalar value, so such strings are not modelled. For every other string the UTF-16 length is `Text.Utf16Length`.
- The `Text.IsSpace` set is the ECMAScript WhiteSpace and LineTerminator code points. It follows the current Unicode `Zs` category and does not track changes in later Unicode versions.
- `components/main/encryption.tsx` is not part of this model. It holds only cursor-following presentation, a video background and a fixed navigation.

=== FILE: hero.dfy ===
/** The hero page (`HeroContent` in components/sub/hero-content.tsx): a
    four-item menu, the role carousel opened by "Nova conta", and the
    onboarding modal they lead to, composed into one state machine driven by
    key presses, clicks and hovers. */
module Hero {
  import opened Keys
  import opened Onboarding

  datatype MenuItem = MenuItem(caption: string, href: string)

  const Menu: seq<MenuItem> := [
    MenuItem("Nova conta", "/signup"),
    MenuItem("Carregar conta", "/signin"),
    MenuItem("Opções", "/settings"),
    MenuItem("Manual", "/manual")
  ]

  /** The role carousel, in display order. */
  const Roles: seq<Role> := [Estudante, Pesquisador, Profissional, Empresario]

  // ---------------------------------------------------------------- wrap-around

  /** JavaScript's `%`: the remainder truncates toward zero, so it takes the
      sign of the dividend. */
  function JsRem(a: int, b: int): (r: int)
    requires b > 0
    ensures -b < r < b
    ensures a >= 0 ==> r == a % b
    ensures a < 0 ==> r <= 0
    ensures (a - r) % b == 0
  {
    if a >= 0 then
      ModUnique(a - a % b, a / b, 0, b);
      a % b
    else
      NegativeRemainder(a, b);
      -((-a) % b)
  }

  /** Negating the remainder of `-a` gives a value congruent to `a`. */
  lemma NegativeRemainder(a: int, b: int)
    requires b > 0 && a < 0
    ensures (a + (-a) % b) % b == 0
  {
    var q, m := (-a) / b, (-a) % b;
    assert a + m == b * (-q) + 0;
    ModUnique(a + m, -q, 0, b);
  }

  /** The remainder of `x` by `b` is the `m` of any `x == b * k + m` with
      `0 <= m < b`. */
  lemma ModUnique(x: int, k: int, m: int, b: int)
    requires b > 0 && 0 <= m < b && x == b * k + m
    ensures x % b == m
  {
    var d := x / b;
    assert b * (k - d) == x % b - m by {
      assert b * (k - d) == b * k - b * d;
    }
    NoSmallMultiple(k - d, b);
  }

  /** The only multiple of `b` strictly between `-b` and `b` is zero. */
  lemma NoSmallMultiple(k: int, b: int)
    requires b > 0 && -b < b * k < b
    ensures k == 0
  {
    if k >= 1 {
      assert b * k == b * (k - 1) + b;
      ProductNonNegative(k - 1, b);
    } else if k <= -1 {
      assert b * k == b * (k + 1) - b;
      assert b * (k + 1) == -(b * (-(k + 1)));
      ProductNonNegative(-(k + 1), b);
    }
  }

  lemma ProductNonNegative(k: int, b: int)
    requires b > 0 && k >= 0
    ensures b * k >= 0
  {
  }

  /** `(i - 1 + n) % n`: one place back, wrapping from the first to the last. */
  function Prev(i: int, n: int): (r: int)
    requires n > 0
    ensures 0 <= i < n ==> 0 <= r < n && r == (if i == 0 then n - 1 else i - 1)
  {
    JsRem(i - 1 + n, n)
  }

  /** `(i + 1) % n`: one place forward, wrapping from the last to the first. */
  function Next(i: int, n: int): (r: int)
    requires n > 0
    ensures 0 <= i < n ==> 0 <= r < n && r == (if i == n - 1 then 0 else i + 1)
  {
    JsRem(i + 1, n)
  }

  /** A step forward and a step back cancel, in either order. */
  lemma WrapInverse(i: int, n: int)
    requires n > 0 && 0 <= i < n
    ensures Prev(Next(i, n), n) == i
    ensures Next(Prev(i, n), n) == i
  {
  }

  // ---------------------------------------------------------------- page state

  /** `index`, `roleIndex`, `pickerOpen`, `onboardOpen`, `chosenRole` of the
      page, and the modal's draft (which outlives the modal being closed). */
  datatype State = State(index: int, roleIndex: int, pickerOpen: bool, onboardOpen: bool,
                         chosenRole: Role, draft: Draft)

  const Initial: State := State(0, 0, false, false, Estudante, Draft("", "", "", "", Sim, 0))

  predicate Inv(s: State)
  {
    && 0 <= s.index < |Menu|
    && 0 <= s.roleIndex < |Roles|
    && Onboarding.Inv(s.chosenRole, s.draft)
  }

  /** What an event leads to: a new page state, or leaving the page for
      `path` with the given query pairs. */
  datatype Effect = Update(st: State) | Go(path: string, query: seq<(string, string)>)

  /** Binds the carousel's role and opens the modal, whose opening effect
      resets the draft. */
  function OpenOnboarding(s: State): (r: Effect)
    ensures r.Update? && r.st.index == s.index && r.st.roleIndex == s.roleIndex
    ensures r.st.pickerOpen == s.pickerOpen
    ensures 0 <= s.roleIndex < |Roles| ==>
      r.st.onboardOpen && r.st.chosenRole == Roles[s.roleIndex]
      && r.st.draft.step == 0 && forall key :: FieldValue(r.st.draft, key) == ""
    ensures Inv(s) ==> Inv(r.st)
  {
    if 0 <= s.roleIndex < |Roles| then
      Update(s.(chosenRole := Roles[s.roleIndex], onboardOpen := true, draft := Reset(s.draft)))
    else Update(s)
  }

  /** The window `keydown` listener. */
  function WindowKey(s: State, code: Code): (r: Effect)
    ensures s.onboardOpen ==> r == Update(s)
    ensures r.Go? ==>
      (!s.pickerOpen && 0 <= s.index < |Menu| && Menu[s.index].caption != "Nova conta"
       && r == Go(Menu[s.index].href, []))
    ensures (!s.onboardOpen && s.pickerOpen && code !in {ArrowLeft, KeyA, ArrowRight, KeyD, Enter, Escape})
      ==> r == Update(s)
    ensures (!s.onboardOpen && !s.pickerOpen && code !in {ArrowUp, KeyW, ArrowDown, KeyS, Enter})
      ==> r == Update(s)
  {
    if s.onboardOpen then Update(s)
    else if s.pickerOpen then
      match code
      case ArrowLeft => Update(s.(roleIndex := Prev(s.roleIndex, |Roles|)))
      case KeyA => Update(s.(roleIndex := Prev(s.roleIndex, |Roles|)))
      case ArrowRight => Update(s.(roleIndex := Next(s.roleIndex, |Roles|)))
      case KeyD => Update(s.(roleIndex := Next(s.roleIndex, |Roles|)))
      case Enter => OpenOnboarding(s)
      case Escape => Update(s.(pickerOpen := false))
      case _ => Update(s)
    else
      match code
      case ArrowUp => Update(s.(index := Prev(s.index, |Menu|)))
      case KeyW => Update(s.(index := Prev(s.index, |Menu|)))
      case ArrowDown => Update(s.(index := Next(s.index, |Menu|)))
      case KeyS => Update(s.(index := Next(s.index, |Menu|)))
      case Enter =>
        if !(0 <= s.index < |Menu|) then Update(s)
        else if Menu[s.index].caption == "Nova conta" then Update(s.(pickerOpen := true))
        else Go(Menu[s.index].href, [])
      case _ => Update(s)
  }

  // ---------------------------------------------------------------- events

  datatype Event =
    | Key(code: Code)          // a key press; inside the modal while it is open
    | Hover(item: int)         // pointer enters menu item `item`
    | ClickNovaConta           // click on the "Nova conta" card
    | ClickPrevRole            // carousel chevron left
    | ClickNextRole            // carousel chevron right
    | ClickRole                // click on the carousel's role label
    | ModalEdit(edit: Edit)    // change in one of the modal's inputs
    | ClickContinue            // the modal's "Continuar" button
    | ClickClose               // the modal's close button, backdrop or "Cancelar"

  /** Hovers only happen over the four rendered items. */
  predicate WellFormed(ev: Event)
  {
    ev.Hover? ==> 0 <= ev.item < |Menu|
  }

  /** Carries a modal outcome to the page: closing only clears `onboardOpen`. */
  function Lift(s: State, o: Outcome): (r: Effect)
    ensures r.Go? <==> o.Submit?
    ensures r.Go? ==> r.path == "/signup" && r.query == o.query
    ensures r.Update? ==>
      r.st.index == s.index && r.st.roleIndex == s.roleIndex
      && r.st.pickerOpen == s.pickerOpen && r.st.chosenRole == s.chosenRole
    ensures o.Close? ==> !r.st.onboardOpen && r.st.draft == s.draft
    ensures o.Stay? ==> r.st.onboardOpen == s.onboardOpen && r.st.draft == o.draft
  {
    match o
    case Stay(d) => Update(s.(draft := d))
    case Close => Update(s.(onboardOpen := false))
    case Submit(q) => Go("/signup", q)
  }

  /** One event. While the modal is open the page behind it takes no pointer
      events and the window listener ignores keys; the modal and its controls
      exist only while it is open, the carousel's only while the picker is. */
  function Dispatch(s: State, ev: Event): (r: Effect)
    ensures !s.onboardOpen && r.Update? && !r.st.onboardOpen ==> r.st.draft == s.draft
    ensures !s.onboardOpen && r.Update? && r.st.onboardOpen ==>
      (s.pickerOpen && 0 <= s.roleIndex < |Roles| && r.st.chosenRole == Roles[s.roleIndex] && r.st.draft == Reset(s.draft))
    ensures s.onboardOpen && r.Update? ==>
      (r.st.chosenRole == s.chosenRole && r.st.index == s.index
       && r.st.roleIndex == s.roleIndex && r.st.pickerOpen == s.pickerOpen)
    ensures !s.onboardOpen && ev.Hover? ==> r == Update(s.(index := ev.item))
    ensures !s.onboardOpen && ev.ClickNovaConta? ==> r == Update(s.(pickerOpen := true))
    ensures (!s.onboardOpen && s.pickerOpen && ev.ClickPrevRole?)
      ==> r == Update(s.(roleIndex := Prev(s.roleIndex, |Roles|)))
    ensures (!s.onboardOpen && s.pickerOpen && ev.ClickNextRole?)
      ==> r == Update(s.(roleIndex := Next(s.roleIndex, |Roles|)))
    ensures !s.onboardOpen && s.pickerOpen && ev.ClickRole? ==> r == OpenOnboarding(s)
    ensures (!s.onboardOpen && !s.pickerOpen && (ev.ClickPrevRole? || ev.ClickNextRole? || ev.ClickRole?))
      ==> r == Update(s)
    ensures !s.onboardOpen && (ev.ModalEdit? || ev.ClickContinue? || ev.ClickClose?) ==> r == Update(s)
  {
    match ev
    case Key(code) =>
      if s.onboardOpen then Lift(s, HandleKey(s.chosenRole, s.draft, code)) else WindowKey(s, code)
    case Hover(i) => if s.onboardOpen then Update(s) else Update(s.(index := i))
    case ClickNovaConta => if s.onboardOpen then Update(s) else Update(s.(pickerOpen := true))
    case ClickPrevRole =>
      if s.onboardOpen || !s.pickerOpen then Update(s)
      else Update(s.(roleIndex := Prev(s.roleIndex, |Roles|)))
    case ClickNextRole =>
      if s.onboardOpen || !s.pickerOpen then Update(s)
      else Update(s.(roleIndex := Next(s.roleIndex, |Roles|)))
    case ClickRole => if s.onboardOpen || !s.pickerOpen then Update(s) else OpenOnboarding(s)
    case ModalEdit(e) => if s.onboardOpen then Update(s.(draft := ApplyEdit(s.draft, e))) else Update(s)
    case ClickContinue =>
      if s.onboardOpen then Lift(s, Onboarding.ClickContinue(s.chosenRole, s.draft)) else Update(s)
    case ClickClose => if s.onboardOpen then Update(s.(onboardOpen := false)) else Update(s)
  }

  // ---------------------------------------------------------------- properties

  /** Every well-formed event keeps both indices and the draft's step in range. */
  lemma DispatchKeepsInv(s: State, ev: Event)
    requires Inv(s) && WellFormed(ev)
    ensures Dispatch(s, ev).Update? ==> Inv(Dispatch(s, ev).st)
  {
    match ev
    case Key(code) =>
      if s.onboardOpen {
        HandleKeyKeepsInv(s.chosenRole, s.draft, code);
      } else if s.pickerOpen && code == Enter {
        ResetState(Roles[s.roleIndex], s.draft);
      }
    case ClickRole =>
      if !s.onboardOpen && s.pickerOpen {
        ResetState(Roles[s.roleIndex], s.draft);
      }
    case _ =>
  }

  /** Every state reachable from the initial one by well-formed events
      satisfies the invariant. */
  lemma {:induction false} ReachableInv(evs: seq<Event>)
    requires forall i :: 0 <= i < |evs| ==> WellFormed(evs[i])
    ensures Run(Initial, evs).Update? ==> Inv(Run(Initial, evs).st)
  {
    RunKeepsInv(Initial, evs);
  }

  lemma {:induction false} RunKeepsInv(s: State, evs: seq<Event>)
    requires Inv(s)
    requires forall i :: 0 <= i < |evs| ==> WellFormed(evs[i])
    ensures Run(s, evs).Update? ==> Inv(Run(s, evs).st)
    decreases |evs|
  {
    if evs != [] {
      DispatchKeepsInv(s, evs[0]);
      var r := Dispatch(s, evs[0]);
      if r.Update? {
        RunKeepsInv(r.st, evs[1..]);
      }
    }
  }

  /** Events in order, stopping at the first that leaves the page. */
  function Run(s: State, evs: seq<Event>): (r: Effect)
    ensures evs == [] ==> r == Update(s)
    ensures |evs| == 1 ==> r == Dispatch(s, evs[0])
    decreases |evs|
  {
    if evs == [] then Update(s)
    else
      var r := Dispatch(s, evs[0]);
      if r.Go? then r else Run(r.st, evs[1..])
  }

  /** Running two event sequences one after the other is running their
      concatenation: the page reacts to each event in turn, and nothing
      after leaving it happens. */
  lemma {:induction false} RunAppend(s: State, a: seq<Event>, b: seq<Event>)
    ensures Run(s, a + b) == (var r := Run(s, a); if r.Go? then r else Run(r.st, b))
    decreases |a|
  {
    if a == [] {
      assert a + b == b;
    } else {
      assert (a + b)[0] == a[0];
      assert (a + b)[1..] == a[1..] + b;
      var r := Dispatch(s, a[0]);
      if r.Update? {
        RunAppend(r.st, a[1..], b);
      }
    }
  }

  /** While the onboarding modal is open the window listener changes nothing. */
  lemma WindowIgnoredWhileOnboarding(s: State, code: Code)
    requires s.onboardOpen
    ensures WindowKey(s, code) == Update(s)
  {
  }

  /** Up/W and Down/S move the menu highlight one place with wrap-around;
      Left/Right in the closed menu do nothing. */
  lemma MenuArrows(s: State)
    requires Inv(s) && !s.onboardOpen && !s.pickerOpen
    ensures WindowKey(s, ArrowUp) == WindowKey(s, KeyW)
      == Update(s.(index := if s.index == 0 then 3 else s.index - 1))
    ensures WindowKey(s, ArrowDown) == WindowKey(s, KeyS)
      == Update(s.(index := if s.index == 3 then 0 else s.index + 1))
    ensures WindowKey(s, ArrowLeft) == WindowKey(s, ArrowRight) == Update(s)
  {
  }

  /** Left/A and Right/D turn the carousel one place with wrap-around. */
  lemma PickerArrows(s: State)
    requires Inv(s) && !s.onboardOpen && s.pickerOpen
    ensures WindowKey(s, ArrowLeft) == WindowKey(s, KeyA)
      == Update(s.(roleIndex := if s.roleIndex == 0 then 3 else s.roleIndex - 1))
    ensures WindowKey(s, ArrowRight) == WindowKey(s, KeyD)
      == Update(s.(roleIndex := if s.roleIndex == 3 then 0 else s.roleIndex + 1))
  {
  }

  /** Enter in the carousel binds the displayed role and opens onboarding
      with a fresh draft; Escape closes the carousel and opens nothing. */
  lemma PickerEnterAndEscape(s: State)
    requires Inv(s) && !s.onboardOpen && s.pickerOpen
    ensures var r := WindowKey(s, Enter);
      r.Update? && r.st.onboardOpen && r.st.chosenRole == Roles[s.roleIndex]
      && r.st.draft == Reset(s.draft)
    ensures var r := WindowKey(s, Escape);
      r == Update(s.(pickerOpen := false)) && !r.st.onboardOpen
  {
  }

  /** Enter on "Nova conta" opens the carousel instead of navigating; Enter
      on any other item navigates to its `href`. */
  lemma MenuEnter(s: State)
    requires Inv(s) && !s.onboardOpen && !s.pickerOpen
    ensures s.index == 0 ==> WindowKey(s, Enter) == Update(s.(pickerOpen := true))
    ensures s.index != 0 ==> WindowKey(s, Enter) == Go(Menu[s.index].href, [])
    ensures WindowKey(s, Enter).Go? ==> WindowKey(s, Enter).path != "/signup"
  {
  }

  /** The page leaves for `/signup` only from the open modal with every step
      valid, carrying the draft's query pairs. */
  lemma SignupOnlyWhenValid(s: State, ev: Event)
    requires Dispatch(s, ev).Go? && Dispatch(s, ev).path == "/signup"
    ensures s.onboardOpen && CanSubmit(s.chosenRole, s.draft)
    ensures Dispatch(s, ev).query == Query(s.chosenRole, s.draft)
  {
  }
}

=== FILE: keys.dfy ===
/** The physical key codes (`KeyboardEvent.code`) the hero page reacts to;
    every other key is `Other`. */
module Keys {

  datatype Code =
    | Enter | Escape | Backspace | Delete
    | ArrowUp | ArrowDown | ArrowLeft | ArrowRight
    | KeyW | KeyA | KeyS | KeyD
    | Other
}

=== FILE: onboarding.dfy ===
/** The onboarding modal (`OnboardModal` in components/sub/hero-content.tsx):
    a role-dependent list of steps, one validator per step, keyboard
    navigation over the steps, the reset performed whenever the modal opens,
    and the submission that leaves the page with a list of query pairs. */
module Onboarding {
  import opened Text
  import opened Keys

  datatype Option<T> = None | Some(value: T)

  /** The four account roles, in the order of the role carousel. */
  datatype Role = Estudante | Pesquisador | Profissional | Empresario

  function Slug(r: Role): string
  {
    match r
    case Estudante => "estudante"
    case Pesquisador => "pesquisador"
    case Profissional => "profissional"
    case Empresario => "empresario"
  }

  function RoleOfSlug(s: string): (r: Option<Role>)
    ensures r.Some? ==> Slug(r.value) == s
  {
    if s == "estudante" then Some(Estudante)
    else if s == "pesquisador" then Some(Pesquisador)
    else if s == "profissional" then Some(Profissional)
    else if s == "empresario" then Some(Empresario)
    else None
  }

  /** The field each step edits. */
  datatype StepKey = IdKey | NomeKey | EmailKey | CelularKey | EnsinoKey

  /** Answer to "Concluiu o ensino médio?"; the radio group always holds one. */
  datatype Ensino = Sim | Nao

  function EnsinoValue(e: Ensino): string
  {
    match e
    case Sim => "sim"
    case Nao => "nao"
  }

  function EnsinoOfValue(s: string): (r: Option<Ensino>)
    ensures r.Some? ==> EnsinoValue(r.value) == s
  {
    if s == "sim" then Some(Sim) else if s == "nao" then Some(Nao) else None
  }

  /** The modal's state: one value per field and the current step index. */
  datatype Draft = Draft(id: string, nome: string, email: string, celular: string,
                         ensino: Ensino, step: int)

  // ---------------------------------------------------------------- steps

  /** `id, nome, email, celular`, then `ensino` unless the role is
      `pesquisador`. */
  function Steps(role: Role): (r: seq<StepKey>)
    ensures |r| == if role == Pesquisador then 4 else 5
    ensures forall i :: 0 <= i < |r| ==> (r[i] == EnsinoKey <==> i == 4)
  {
    [IdKey, NomeKey, EmailKey, CelularKey] + (if role == Pesquisador then [] else [EnsinoKey])
  }

  function LastIndex(role: Role): (r: nat)
    ensures r + 1 == |Steps(role)|
    ensures r == 3 <==> role == Pesquisador
    ensures r == 4 <==> role != Pesquisador
  {
    |Steps(role)| - 1
  }

  /** `steps[idx]?.key`: no key outside the step list. */
  function KeyAt(role: Role, idx: int): (r: Option<StepKey>)
    ensures r.Some? <==> 0 <= idx <= LastIndex(role)
  {
    if 0 <= idx < |Steps(role)| then Some(Steps(role)[idx]) else None
  }

  /** The step list is the four common fields in a fixed order, followed by
      the schooling question exactly for the roles other than `pesquisador`. */
  lemma StepsShape(role: Role)
    ensures Steps(role)[..4] == [IdKey, NomeKey, EmailKey, CelularKey]
    ensures EnsinoKey in Steps(role) <==> role != Pesquisador
    ensures forall i, j :: 0 <= i < j < |Steps(role)| ==> Steps(role)[i] != Steps(role)[j]
  {
  }

  /** The draft is well formed for `role` when its step lies in the list. */
  predicate Inv(role: Role, d: Draft)
  {
    0 <= d.step <= LastIndex(role)
  }

  // ---------------------------------------------------------------- validators

  /** `idValue.trim().length > 3`, counted in UTF-16 code units: more than
      three code points always suffice, and two astral ones already do. */
  predicate IdValid(v: string): (ok: bool)
    ensures |Trim(v)| > 3 ==> ok
    ensures ok ==> |Trim(v)| >= 2
    ensures Bmp(Trim(v)) ==> (ok <==> |Trim(v)| > 3)
    ensures var t := Trim(v);
      ok <==> |t| > 3 || (|t| == 3 && !Bmp(t))
              || (|t| == 2 && t[0] as int > 0xFFFF && t[1] as int > 0xFFFF)
  {
    var t := Trim(v);
    assert |t| == 2 ==> t[1..][1..] == [];
    Utf16Length(t) > 3
  }

  /** `nome.trim().length > 2`, counted in UTF-16 code units. */
  predicate NomeValid(v: string): (ok: bool)
    ensures |Trim(v)| > 2 ==> ok
    ensures ok ==> |Trim(v)| >= 2
    ensures Bmp(Trim(v)) ==> (ok <==> |Trim(v)| > 2)
    ensures var t := Trim(v); ok <==> |t| > 2 || (|t| == 2 && !Bmp(t))
  {
    Utf16Length(Trim(v)) > 2
  }

  /** `/\S+@\S+\.\S+/.test(email)`: some `@` has a non-space character
      before it and a non-space run after it up to a `.` that is followed by
      a non-space character. */
  predicate EmailValid(v: string): (ok: bool)
    ensures ok <==> exists j, k | 0 < j < k < |v| :: MinimalMatch(v, j, k)
  {
    EmailShapeMinimal(v);
    EmailShape(v)
  }

  /** `celular.trim().replace(/\D/g, "").length >= 10`: the raw value holds at
      least ten decimal digits, since trimming first never changes the count. */
  predicate CelularValid(v: string): (ok: bool)
    ensures ok <==> |Digits(v)| >= 10
  {
    DigitsIgnoreTrim(v);
    |Digits(Trim(v))| >= 10
  }

  /** The text bound to the input of step `key` (the schooling step has none). */
  function FieldValue(d: Draft, key: StepKey): string
  {
    match key
    case IdKey => d.id
    case NomeKey => d.nome
    case EmailKey => d.email
    case CelularKey => d.celular
    case EnsinoKey => ""
  }

  /** `validate(idx)`: the validator of the step at `idx`; false off the list. */
  function Validate(role: Role, d: Draft, idx: int): (ok: bool)
    ensures ok <==>
      || (idx == 0 && IdValid(d.id))
      || (idx == 1 && NomeValid(d.nome))
      || (idx == 2 && EmailValid(d.email))
      || (idx == 3 && CelularValid(d.celular))
      || (idx == 4 && role != Pesquisador)
  {
    match KeyAt(role, idx)
    case None => false
    case Some(key) =>
      match key
      case IdKey => IdValid(d.id)
      case NomeKey => NomeValid(d.nome)
      case EmailKey => EmailValid(d.email)
      case CelularKey => CelularValid(d.celular)
      case EnsinoKey => d.ensino == Sim || d.ensino == Nao
  }

  /** `canSubmit`: every step of the list validates. Submission needs
      exactly the four text fields to be valid, for every role: the schooling
      answer never blocks it. */
  predicate CanSubmit(role: Role, d: Draft): (ok: bool)
    ensures ok <==>
      IdValid(d.id) && NomeValid(d.nome) && EmailValid(d.email) && CelularValid(d.celular)
  {
    var all := forall i | 0 <= i <= LastIndex(role) :: Validate(role, d, i);
    assert all ==> Validate(role, d, 0) && Validate(role, d, 1);
    assert all ==> Validate(role, d, 2) && Validate(role, d, 3);
    all
  }

  // ---------------------------------------------------------------- opening

  /** The effect run when the modal opens: every field cleared, the
      schooling answer back to `sim`, the first step current. */
  function Reset(prev: Draft): (r: Draft)
    ensures forall key :: FieldValue(r, key) == ""
    ensures r.ensino == Sim && r.step == 0
  {
    Draft("", "", "", "", Sim, 0)
  }

  /** After the reset the draft is well formed for any role, its first step
      is the identifier, and neither that step nor the submission validates. */
  lemma ResetState(role: Role, prev: Draft)
    ensures var r := Reset(prev);
      Inv(role, r) && KeyAt(role, r.step) == Some(IdKey)
      && !Validate(role, r, r.step) && !CanSubmit(role, r)
  {
    assert Trim("") == [];
    assert !Validate(role, Reset(prev), 0);
  }

  /** Nothing of an earlier session survives the reset. */
  lemma ResetForgets(p: Draft, q: Draft)
    ensures Reset(p) == Reset(q)
  {
  }

  // ---------------------------------------------------------------- editing

  /** A change in one of the modal's inputs. */
  datatype Edit = TypeInto(key: StepKey, value: string) | Choose(choice: Ensino)

  /** The `onChange` handlers: typing replaces the value of the field whose
      input it is (every input stays editable, not only the current step's);
      the radio group sets the schooling answer. */
  function ApplyEdit(d: Draft, e: Edit): (r: Draft)
    ensures r.step == d.step
    ensures e.TypeInto? && e.key != EnsinoKey ==> FieldValue(r, e.key) == e.value && r.ensino == d.ensino
    ensures e.TypeInto? ==> forall k :: k != e.key ==> FieldValue(r, k) == FieldValue(d, k)
    ensures e.TypeInto? && e.key == EnsinoKey ==> r == d
    ensures e.Choose? ==> r.ensino == e.choice && forall k :: FieldValue(r, k) == FieldValue(d, k)
  {
    match e
    case Choose(c) => d.(ensino := c)
    case TypeInto(key, v) =>
      match key
      case IdKey => d.(id := v)
      case NomeKey => d.(nome := v)
      case EmailKey => d.(email := v)
      case CelularKey => d.(celular := v)
      case EnsinoKey => d
  }

  // ---------------------------------------------------------------- submission

  /** The query pairs handed to `URLSearchParams`, in insertion order. */
  function Query(role: Role, d: Draft): (q: seq<(string, string)>)
    ensures |q| == |Steps(role)| + 1
    ensures forall i :: 0 <= i < |q| ==> q[i].0 == ["role", "id", "nome", "email", "celular", "ensino"][i]
  {
    [("role", Slug(role)), ("id", d.id), ("nome", d.nome), ("email", d.email), ("celular", d.celular)]
    + (if role == Pesquisador then [] else [("ensino", EnsinoValue(d.ensino))])
  }

  /** The value of the first pair named `key`. */
  function Lookup(q: seq<(string, string)>, key: string): (r: Option<string>)
    ensures r.Some? <==> exists i :: 0 <= i < |q| && q[i].0 == key
  {
    if q == [] then None
    else if q[0].0 == key then Some(q[0].1)
    else Lookup(q[1..], key)
  }

  /** What a submission carries, as read back from its query pairs. */
  datatype Submission = Submission(role: Role, id: string, nome: string, email: string,
                                   celular: string, ensino: Option<Ensino>)

  /** Reads a submission back from query pairs; `None` when a mandatory
      pair is missing or a role or schooling value is not one of ours. */
  function ParseQuery(q: seq<(string, string)>): Option<Submission>
  {
    var rs, id, nome, email, cel := Lookup(q, "role"), Lookup(q, "id"), Lookup(q, "nome"),
                                    Lookup(q, "email"), Lookup(q, "celular");
    if rs.None? || id.None? || nome.None? || email.None? || cel.None? then None
    else
      var role := RoleOfSlug(rs.value);
      var es := Lookup(q, "ensino");
      if role.None? then None
      else if es.None? then
        Some(Submission(role.value, id.value, nome.value, email.value, cel.value, None))
      else
        var e := EnsinoOfValue(es.value);
        if e.None? then None
        else Some(Submission(role.value, id.value, nome.value, email.value, cel.value, Some(e.value)))
  }

  lemma {:induction false} LookupFirst(q: seq<(string, string)>, i: int, key: string)
    requires 0 <= i < |q| && q[i].0 == key
    requires forall j :: 0 <= j < i ==> q[j].0 != key
    ensures Lookup(q, key) == Some(q[i].1)
  {
    if i > 0 {
      LookupFirst(q[1..], i - 1, key);
    }
  }

  /** The query carries the role and the four text fields unchanged, and
      the schooling answer exactly when the role is not `pesquisador`. */
  lemma QueryRoundTrip(role: Role, d: Draft)
    ensures ParseQuery(Query(role, d)) ==
      Some(Submission(role, d.id, d.nome, d.email, d.celular,
                      if role == Pesquisador then None else Some(d.ensino)))
  {
    var q := Query(role, d);
    LookupFirst(q, 0, "role");
    LookupFirst(q, 1, "id");
    LookupFirst(q, 2, "nome");
    LookupFirst(q, 3, "email");
    LookupFirst(q, 4, "celular");
    assert RoleOfSlug(Slug(role)) == Some(role);
    if role == Pesquisador {
      assert forall j :: 0 <= j < |q| ==> q[j].0 != "ensino";
    } else {
      LookupFirst(q, 5, "ensino");
      assert EnsinoOfValue(EnsinoValue(d.ensino)) == Some(d.ensino);
    }
  }

  // ---------------------------------------------------------------- keyboard

  /** What a key press or click inside the modal leads to. */
  datatype Outcome = Stay(draft: Draft) | Close | Submit(query: seq<(string, string)>)

  /** The value `Backspace`/`Delete` inspects: the current step's text, or
      the empty string for the schooling step and for a step off the list. */
  function CurrentValue(role: Role, d: Draft): string
  {
    match KeyAt(role, d.step)
    case None => ""
    case Some(key) => FieldValue(d, key)
  }

  /** `handleKeyDown`. */
  function HandleKey(role: Role, d: Draft, code: Code): (r: Outcome)
    ensures r.Close? <==> code == Escape
    ensures r.Submit? ==> code == Enter && d.step == LastIndex(role) && CanSubmit(role, d)
    ensures r.Submit? ==> r.query == Query(role, d)
    ensures r.Stay? ==> r.draft == d.(step := r.draft.step)
    ensures code != Enter && code != Escape && code != Backspace && code != Delete ==> r == Stay(d)
  {
    match code
    case Escape => Close
    case Backspace => Retreat(role, d)
    case Delete => Retreat(role, d)
    case Enter =>
      if !Validate(role, d, d.step) then Stay(d)
      else if d.step < LastIndex(role) then Stay(d.(step := Min(LastIndex(role), d.step + 1)))
      else if CanSubmit(role, d) then Submit(Query(role, d))
      else Stay(d)
    case _ => Stay(d)
  }

  function Min(a: int, b: int): int { if a <= b then a else b }
  function Max(a: int, b: int): int { if a >= b then a else b }

  /** The `Backspace`/`Delete` branch: step back when the current field is
      empty (raw, not trimmed) or is the schooling question. */
  function Retreat(role: Role, d: Draft): (r: Outcome)
    ensures r.Stay? && r.draft == d.(step := r.draft.step)
    ensures r.draft.step == d.step || r.draft.step == Max(0, d.step - 1)
    ensures r.draft.step != d.step ==>
      CurrentValue(role, d) == "" || KeyAt(role, d.step) == Some(EnsinoKey)
  {
    var key := KeyAt(role, d.step);
    if CurrentValue(role, d) == "" || key == Some(EnsinoKey) then Stay(d.(step := Max(0, d.step - 1)))
    else Stay(d)
  }

  /** The "Continuar" button: disabled unless every step validates. */
  function ClickContinue(role: Role, d: Draft): (r: Outcome)
    ensures r.Submit? <==> CanSubmit(role, d)
    ensures r.Submit? ==> r.query == Query(role, d)
    ensures !r.Submit? ==> r == Stay(d)
  {
    if CanSubmit(role, d) then Submit(Query(role, d)) else Stay(d)
  }

  /** Enter on a step whose validator fails changes nothing. */
  lemma EnterBlockedWhenInvalid(role: Role, d: Draft)
    requires !Validate(role, d, d.step)
    ensures HandleKey(role, d, Enter) == Stay(d)
  {
  }

  /** Enter on a valid step before the last moves exactly one step on. */
  lemma EnterAdvances(role: Role, d: Draft)
    requires Inv(role, d) && d.step < LastIndex(role) && Validate(role, d, d.step)
    ensures HandleKey(role, d, Enter) == Stay(d.(step := d.step + 1))
  {
  }

  /** Enter submits exactly at the last step with every step valid. */
  lemma EnterSubmitsIff(role: Role, d: Draft)
    requires Inv(role, d)
    ensures HandleKey(role, d, Enter).Submit? <==> d.step == LastIndex(role) && CanSubmit(role, d)
  {
  }

  /** Every step change made by Enter passed the validator of the step it
      leaves, and moved forward by one. */
  lemma EnterOnlyPastValid(role: Role, d: Draft)
    requires Inv(role, d)
    ensures var r := HandleKey(role, d, Enter);
      r.Stay? && r.draft.step != d.step ==> Validate(role, d, d.step) && r.draft.step == d.step + 1
  {
  }

  /** Whatever the key, the step only ever moves forward through Enter, by
      one, and past a step whose validator holds. */
  lemma AdvanceOnlyPastValid(role: Role, d: Draft, code: Code)
    requires Inv(role, d)
    ensures var r := HandleKey(role, d, code);
      r.Stay? && r.draft.step > d.step ==>
        code == Enter && Validate(role, d, d.step) && r.draft.step == d.step + 1
  {
  }

  /** Backspace or Delete steps back exactly when the current field is
      empty or is the schooling question, and never below the first step. */
  lemma RetreatIff(role: Role, d: Draft, code: Code)
    requires Inv(role, d) && (code == Backspace || code == Delete)
    ensures var key := Steps(role)[d.step];
      HandleKey(role, d, code) ==
        Stay(d.(step := if FieldValue(d, key) == "" || key == EnsinoKey then Max(0, d.step - 1) else d.step))
  {
  }

  /** At the first step Backspace and Delete change nothing. */
  lemma RetreatAtFirstStep(role: Role, d: Draft, code: Code)
    requires d.step == 0 && (code == Backspace || code == Delete)
    ensures HandleKey(role, d, code) == Stay(d)
  {
  }

  /** No key press moves the step outside the list. */
  lemma HandleKeyKeepsInv(role: Role, d: Draft, code: Code)
    requires Inv(role, d)
    ensures HandleKey(role, d, code).Stay? ==> Inv(role, HandleKey(role, d, code).draft)
  {
  }

  /** A value with no surrounding whitespace is its own trim. */
  lemma TrimPlain(s: string)
    requires s == [] || (!IsSpace(s[0]) && !IsSpace(s[|s| - 1]))
    ensures Trim(s) == s
  {
    TrimUnique([], s, []);
    assert [] + s + [] == s;
  }

  lemma SampleNomeValid()
    ensures NomeValid("Ana Silva")
  {
    TrimPlain("Ana Silva");
  }

  lemma SampleEmailValid()
    ensures EmailValid("ana@x.com")
  {
    assert MatchesAt("ana@x.com", 0, 3, 5, 9);
  }

  lemma SampleCelularValid()
    ensures CelularValid("11999999999")
  {
    var v := "11999999999";
    assert forall m :: 0 <= m < |v| ==> IsDigit(v[m]);
    assert Digits(v) == v;
  }

  lemma SampleIdValid()
    ensures IdValid("0000-0001-2345-6789")
  {
    TrimPlain("0000-0001-2345-6789");
  }

  /** The sample answers of a `pesquisador` all validate. */
  lemma SampleAnswersValid()
    ensures NomeValid("Ana Silva") && EmailValid("ana@x.com") && CelularValid("11999999999")
    ensures IdValid("0000-0001-2345-6789")
  {
    SampleNomeValid();
    SampleEmailValid();
    SampleCelularValid();
    SampleIdValid();
  }

  /** Reaching the last step is not enough to submit: the fields of earlier
      steps stay editable, and with one of them emptied again Enter at the
      last step does nothing. */
  lemma LastStepIsNotEnough(d: Draft)
    requires d.id == "" && d.step == LastIndex(Pesquisador) && CelularValid(d.celular)
    ensures Inv(Pesquisador, d) && Validate(Pesquisador, d, d.step)
    ensures HandleKey(Pesquisador, d, Enter) == Stay(d)
  {
    assert Trim(d.id) == [];
    assert !CanSubmit(Pesquisador, d);
  }

  /** A `pesquisador` whose answers all validate submits at step 3 with a
      query that omits `ensino`. */
  lemma PesquisadorScenario()
    ensures var d := Draft("0000-0001-2345-6789", "Ana Silva", "ana@x.com", "11999999999", Sim, 3);
      && CanSubmit(Pesquisador, d)
      && HandleKey(Pesquisador, d, Enter).Submit?
      && Lookup(HandleKey(Pesquisador, d, Enter).query, "ensino") == None
  {
    var d := Draft("0000-0001-2345-6789", "Ana Silva", "ana@x.com", "11999999999", Sim, 3);
    SampleAnswersValid();
    QueryRoundTrip(Pesquisador, d);
  }

  /** Two emoji make a valid identifier: `length` counts each as a surrogate
      pair, so the trimmed value has four code units though only two code
      points. */
  lemma AstralIdValid()
    ensures |"\U{1F600}\U{1F600}"| == 2
    ensures IdValid("\U{1F600}\U{1F600}")
    ensures NomeValid("\U{1F600}a")
  {
    TrimPlain("\U{1F600}\U{1F600}");
    TrimPlain("\U{1F600}a");
  }

  /** An `estudante` identifier of two characters never validates, so Enter
      at the first step is blocked whatever the other fields hold. */
  lemma ShortIdBlocks(d: Draft)
    requires d.id == "12" && d.step == 0
    ensures !Validate(Estudante, d, 0)
    ensures HandleKey(Estudante, d, Enter) == Stay(d)
  {
    TrimPlain(d.id);
  }
}

=== FILE: rain.dfy ===
/** The integer skeleton of the glyph-rain background
    (components/main/star-background.tsx): the glyph source string, the
    column count, and the index arithmetic that keeps every palette index
    and every offset into the glyph source in range across mounting,
    recycling and resizing. `Math.random()` is an input drawn from [0, 1). */
module GlyphRain {

  const Words: seq<string> := [
    "教育", "学习", "知识", "智慧", "未来", "进步", "创新", "创造", "希望", "梦想",
    "成长", "勇气", "诚信", "合作", "和平", "自由", "幸运", "感恩", "友善", "光明", "科技"
  ]

  /** The cool palette: shades of blue and teal. */
  const Palette: seq<string> := [
    "#9ecbff", "#5fb4ff", "#2b8eff", "#1a73e8",
    "#1572a1", "#00a7a7", "#009688", "#33cccc", "#7dd3fc"
  ]

  const FontSize: int := 12
  const FadeLengthLines: int := 24

  // ---------------------------------------------------------------- glyph source

  /** The piece contributed by word `i`: the word, then `₿` when i % 3 == 1,
      then `Ξ` when i % 5 == 2, then `ICP` when i % 7 == 3. */
  function Chunk(words: seq<string>, i: nat): string
    requires i < |words|
  {
    words[i]
    + (if i % 3 == 1 then "₿" else "")
    + (if i % 5 == 2 then "Ξ" else "")
    + (if i % 7 == 3 then "ICP" else "")
  }

  /** The pieces of the first `n` words, in order. */
  function Chunks(words: seq<string>, n: nat): string
    requires n <= |words|
  {
    if n == 0 then "" else Chunks(words, n - 1) + Chunk(words, n - 1)
  }

  /** `chunks.join("")`. */
  function Join(parts: seq<string>): string
  {
    if parts == [] then "" else Join(parts[..|parts| - 1]) + parts[|parts| - 1]
  }

  lemma JoinPush(parts: seq<string>, x: string)
    ensures Join(parts + [x]) == Join(parts) + x
  {
    assert (parts + [x])[..|parts|] == parts;
  }

  /** Pushing `x` and then, when its guard holds, `m` onto the list whose
      join is `acc` adds `x` and the marker to the joined text. */
  lemma PushMarker(parts: seq<string>, acc: string, piece: string, guard: bool, m: string)
    requires Join(parts) == acc + piece
    ensures Join(if guard then parts + [m] else parts) == acc + (piece + (if guard then m else ""))
  {
    if guard {
      JoinPush(parts, m);
      assert (acc + piece) + m == acc + (piece + m);
    } else {
      assert piece + "" == piece;
    }
  }

  /** `buildStreamSource`: pushes every word and its marker tokens onto a
      list, then joins the list. */
  method BuildStreamSource(words: seq<string>) returns (r: string)
    ensures r == Chunks(words, |words|)
  {
    var chunks: seq<string> := [];
    var i := 0;
    while i < |words|
      invariant 0 <= i <= |words|
      invariant Join(chunks) == Chunks(words, i)
    {
      ghost var before := Join(chunks);
      JoinPush(chunks, words[i]);
      chunks := chunks + [words[i]];
      ghost var piece := words[i];
      PushMarker(chunks, before, piece, i % 3 == 1, "₿");
      if i % 3 == 1 {
        chunks := chunks + ["₿"];
      }
      piece := piece + (if i % 3 == 1 then "₿" else "");
      PushMarker(chunks, before, piece, i % 5 == 2, "Ξ");
      if i % 5 == 2 {
        chunks := chunks + ["Ξ"];
      }
      piece := piece + (if i % 5 == 2 then "Ξ" else "");
      PushMarker(chunks, before, piece, i % 7 == 3, "ICP");
      if i % 7 == 3 {
        chunks := chunks + ["ICP"];
      }
      piece := piece + (if i % 7 == 3 then "ICP" else "");
      assert piece == Chunk(words, i);
      i := i + 1;
    }
    r := Join(chunks);
  }

  /** `STREAM_SOURCE`. */
  function StreamSource(): string
  {
    Chunks(Words, |Words|)
  }

  /** The length of the first `n` pieces, counted word by word. */
  function ChunksLength(words: seq<string>, n: nat): int
    requires n <= |words|
  {
    if n == 0 then 0
    else
      (ChunksLength(words, n - 1) + |words[n - 1]|
       + (if (n - 1) % 3 == 1 then 1 else 0)
       + (if (n - 1) % 5 == 2 then 1 else 0)
       + (if (n - 1) % 7 == 3 then 3 else 0))
  }

  lemma {:induction false} ChunksLengthIs(words: seq<string>, n: nat)
    requires n <= |words|
    ensures |Chunks(words, n)| == ChunksLength(words, n)
  {
    if n > 0 {
      ChunksLengthIs(words, n - 1);
    }
  }

  /** Every word is two characters long. */
  lemma WordsLength()
    ensures |Words| == 21
    ensures forall i :: 0 <= i < |Words| ==> |Words[i]| == 2
  {
  }

  /** Any 21 two-character words give 62 characters of pieces. */
  lemma ChunksLengthOfPairs(words: seq<string>)
    requires |words| == 21
    requires forall i :: 0 <= i < |words| ==> |words[i]| == 2
    ensures ChunksLength(words, 21) == 62
  {
    assert ChunksLength(words, 1) == 2;
    assert ChunksLength(words, 2) == 5;
    assert ChunksLength(words, 3) == 8;
    assert ChunksLength(words, 4) == 13;
    assert ChunksLength(words, 5) == 16;
    assert ChunksLength(words, 6) == 18;
    assert ChunksLength(words, 7) == 20;
    assert ChunksLength(words, 8) == 24;
    assert ChunksLength(words, 9) == 26;
    assert ChunksLength(words, 10) == 28;
    assert ChunksLength(words, 11) == 34;
    assert ChunksLength(words, 12) == 36;
    assert ChunksLength(words, 13) == 39;
    assert ChunksLength(words, 14) == 42;
    assert ChunksLength(words, 15) == 44;
    assert ChunksLength(words, 16) == 46;
    assert ChunksLength(words, 17) == 49;
    assert ChunksLength(words, 18) == 55;
    assert ChunksLength(words, 19) == 57;
    assert ChunksLength(words, 20) == 60;
    assert ChunksLength(words, 21) == 62;
  }

  /** The glyph source has 62 characters (62 UTF-16 code units too: every
      glyph lies in the Basic Multilingual Plane): 21 two-character words,
      seven `₿`, four `Ξ` and three `ICP`. */
  lemma StreamSourceLength()
    ensures |StreamSource()| == 62
  {
    WordsLength();
    ChunksLengthIs(Words, 21);
    ChunksLengthOfPairs(Words);
  }

  /** `STREAM_SOURCE.length`. */
  function SourceLength(): (n: nat)
    ensures n == 62 && n > 0
  {
    StreamSourceLength();
    |StreamSource()|
  }

  // ---------------------------------------------------------------- column count

  /** `Math.round(num / den)` for a non-negative ratio: round half up. */
  function RoundRatio(num: nat, den: nat): (r: nat)
    requires den > 0
    ensures r * den * 2 <= 2 * num + den < (r + 1) * den * 2
  {
    (2 * num + den) / (2 * den)
  }

  /** `Math.round(fontSize * 1.05)`, the width of one column. */
  function ColWidth(): (w: nat)
    ensures w == 13
  {
    RoundRatio(FontSize * 105, 100)
  }

  /** `Math.max(8, Math.floor(width / colWidth) - 6)`. */
  function ColumnCount(width: int): (c: int)
    ensures c >= 8
    ensures c == 8 <==> width < 15 * 13
    ensures c > 8 ==> (c + 6) * 13 <= width < (c + 7) * 13
  {
    var fit := width / ColWidth() - 6;
    if fit > 8 then fit else 8
  }

  /** A wider surface never has fewer columns. */
  lemma ColumnCountMonotone(w1: int, w2: int)
    requires w1 <= w2
    ensures ColumnCount(w1) <= ColumnCount(w2)
  {
    assert w1 / 13 <= w2 / 13;
  }

  // ---------------------------------------------------------------- columns

  /** A value returned by `Math.random()`. */
  predicate Unit(r: real)
  {
    0.0 <= r < 1.0
  }

  /** The integer state of a column: its speed, its palette index and its
      offset into the glyph source (its fractional head row is left out). */
  datatype Column = Column(speed: real, color: int, offset: int)

  predicate ColumnOk(c: Column)
  {
    0 <= c.color < |Palette| && 0 <= c.offset < SourceLength()
  }

  /** `0.50 + (i % 7) * (0.32 / 7)`: seven speed bands. */
  function Speed(i: nat): (v: real)
    ensures 0.5 <= v < 0.82
  {
    0.5 + ((i % 7) as real) * (0.32 / 7.0)
  }

  /** Columns seven apart fall at the same speed. */
  lemma SpeedPeriodic(i: nat)
    ensures Speed(i + 7) == Speed(i)
  {
    assert (i + 7) % 7 == i % 7;
  }

  /** The random draws that initialise one column. */
  datatype Draw = Draw(color: real, offset: real)

  predicate DrawOk(d: Draw)
  {
    Unit(d.color) && Unit(d.offset)
  }

  /** Column `i` at mount or resize: palette index `(i + ⌊3r⌋) % 9` and
      offset `⌊r · len⌋`. */
  function InitColumn(i: nat, d: Draw): (c: Column)
    requires DrawOk(d)
    ensures ColumnOk(c)
    ensures c.speed == Speed(i)
    ensures c.color == i % 9 || c.color == (i + 1) % 9 || c.color == (i + 2) % 9
  {
    var k := (d.color * 3.0).Floor;
    var off := (d.offset * (SourceLength() as real)).Floor;
    Column(Speed(i), (i + k) % |Palette|, off)
  }

  /** The whole column array built from one draw per column. */
  function InitColumns(draws: seq<Draw>): (cols: seq<Column>)
    requires forall j :: 0 <= j < |draws| ==> DrawOk(draws[j])
    ensures |cols| == |draws|
    ensures forall j :: 0 <= j < |cols| ==> ColumnOk(cols[j]) && cols[j].speed == Speed(j)
    ensures forall j :: 0 <= j < |cols| ==> cols[j] == InitColumn(j, draws[j])
  {
    seq(|draws|, j requires 0 <= j < |draws| && DrawOk(draws[j]) => InitColumn(j, draws[j]))
  }

  /** The renderer's state: the column count and one record per column. */
  datatype Rain = Rain(columns: int, cols: seq<Column>)

  predicate RainOk(st: Rain)
  {
    st.columns >= 8 && |st.cols| == st.columns
    && forall j :: 0 <= j < |st.cols| ==> ColumnOk(st.cols[j])
  }

  /** `onResize` (and the mount, which does the same): the column count is
      recomputed from the width and every column is rebuilt from fresh
      draws; the previous state is not consulted. */
  function Resize(prev: Rain, width: int, draws: seq<Draw>): (st: Rain)
    requires |draws| == ColumnCount(width)
    requires forall j :: 0 <= j < |draws| ==> DrawOk(draws[j])
    ensures RainOk(st)
    ensures st.columns == ColumnCount(width)
    ensures forall j :: 0 <= j < |st.cols| ==> st.cols[j] == InitColumn(j, draws[j])
  {
    Rain(ColumnCount(width), InitColumns(draws))
  }

  /** Nothing of the state before a resize survives it. */
  lemma ResizeForgets(p: Rain, q: Rain, width: int, draws: seq<Draw>)
    requires |draws| == ColumnCount(width)
    requires forall j :: 0 <= j < |draws| ==> DrawOk(draws[j])
    ensures Resize(p, width, draws) == Resize(q, width, draws)
  {
  }

  // ---------------------------------------------------------------- recycling

  /** The random draws of one recycle: the offset jump, the recolour coin
      and the new colour. */
  datatype RecycleDraw = RecycleDraw(jump: real, coin: real, color: real)

  predicate RecycleDrawOk(d: RecycleDraw)
  {
    Unit(d.jump) && Unit(d.coin) && Unit(d.color)
  }

  /** `Math.floor(5 + r * 25)`. */
  function Jump(r: real): (k: int)
    requires Unit(r)
    ensures 5 <= k <= 29
  {
    (5.0 + r * 25.0).Floor
  }

  /** A column that has fallen past the bottom: its offset advances by the
      jump modulo the source length, and with probability 0.3 (`r > 0.7`)
      it takes a palette colour `⌊9r⌋`. */
  function Recycle(c: Column, d: RecycleDraw): (r: Column)
    requires RecycleDrawOk(d)
    requires ColumnOk(c)
    ensures ColumnOk(r)
    ensures r.speed == c.speed
    ensures (r.offset - c.offset - Jump(d.jump)) % SourceLength() == 0
    ensures d.coin <= 0.7 ==> r.color == c.color
  {
    var off := (c.offset + Jump(d.jump)) % SourceLength();
    var color := if d.coin > 0.7 then (d.color * (|Palette| as real)).Floor else c.color;
    Column(c.speed, color, off)
  }

  /** Recycling every column of a sound state keeps it sound. */
  lemma RecycleKeepsRainOk(st: Rain, i: int, d: RecycleDraw)
    requires RainOk(st) && 0 <= i < |st.cols| && RecycleDrawOk(d)
    ensures RainOk(st.(cols := st.cols[i := Recycle(st.cols[i], d)]))
  {
  }

  // ---------------------------------------------------------------- trail rows

  /** The trail depths `j` drawn in one frame for a column whose head is at
      pixel height `headY`: the loop over `FADE_LENGTH_LINES` depths stops at
      the first glyph above the surface and skips those below it. */
  method TrailRows(headY: real, height: int) returns (rows: seq<int>)
    ensures |rows| <= FadeLengthLines
    ensures forall j :: j in rows <==>
      (0 <= j < FadeLengthLines
       && -(FontSize as real) <= headY - (j * FontSize) as real <= (height + FontSize) as real)
    ensures forall a, b :: 0 <= a < b < |rows| ==> rows[a] < rows[b]
  {
    rows := [];
    var j := 0;
    while j < FadeLengthLines
      invariant 0 <= j <= FadeLengthLines
      invariant |rows| <= j
      invariant forall a, b :: 0 <= a < b < |rows| ==> rows[a] < rows[b]
      invariant forall a :: 0 <= a < |rows| ==> 0 <= rows[a] < j
      invariant forall x :: 0 <= x < j ==>
        (x in rows <==> -(FontSize as real) <= headY - (x * FontSize) as real <= (height + FontSize) as real)
    {
      var y := headY - (j * FontSize) as real;
      if y < -(FontSize as real) {
        assert forall x :: j <= x < FadeLengthLines ==> headY - (x * FontSize) as real < -(FontSize as real);
        break;
      }
      if y > (height + FontSize) as real {
        j := j + 1;
        continue;
      }
      rows := rows + [j];
      j := j + 1;
    }
  }
}

=== FILE: text.dfy ===
/** String predicates used by the onboarding validators: the whitespace set
    shared by `String.prototype.trim` and the regular-expression class `\S`,
    trimming, the `\D`-deleting digit filter, and the loose e-mail shape
    `/\S+@\S+\.\S+/` (unanchored). */
module Text {

  /** The ECMAScript WhiteSpace and LineTerminator code points (sections 12.2
      and 12.3 of ECMA-262): these are exactly the characters `trim` removes
      and the characters `\s` matches. */
  predicate IsSpace(c: char)
  {
    || c == '\U{0009}' || c == '\U{000A}' || c == '\U{000B}' || c == '\U{000C}'
    || c == '\U{000D}' || c == '\U{0020}' || c == '\U{00A0}' || c == '\U{1680}'
    || ('\U{2000}' <= c <= '\U{200A}')
    || c == '\U{2028}' || c == '\U{2029}' || c == '\U{202F}' || c == '\U{205F}'
    || c == '\U{3000}' || c == '\U{FEFF}'
  }

  /** The regular-expression class `\d`: ASCII decimal digits only. */
  predicate IsDigit(c: char)
  {
    '0' <= c <= '9'
  }

  predicate AllSpace(s: string)
  {
    forall m :: 0 <= m < |s| ==> IsSpace(s[m])
  }

  /** Every character of `s[lo..hi]` is matched by `\S`. */
  predicate NonSpaceBetween(s: string, lo: int, hi: int)
  {
    0 <= lo <= hi <= |s| && forall m :: lo <= m < hi ==> !IsSpace(s[m])
  }

  // ---------------------------------------------------------------- trim

  /** Index of the first character `trim` keeps (|s| when all are space). */
  function TrimStartIndex(s: string): (lo: nat)
    ensures lo <= |s|
    ensures forall m :: 0 <= m < lo ==> IsSpace(s[m])
    ensures lo == |s| || !IsSpace(s[lo])
  {
    if |s| > 0 && IsSpace(s[0]) then 1 + TrimStartIndex(s[1..]) else 0
  }

  /** One past the last character `trim` keeps, searching no lower than `lo`. */
  function TrimEndIndex(s: string, lo: nat): (hi: nat)
    requires lo <= |s|
    ensures lo <= hi <= |s|
    ensures forall m :: hi <= m < |s| ==> IsSpace(s[m])
    ensures hi == lo || !IsSpace(s[hi - 1])
  {
    if |s| > lo && IsSpace(s[|s| - 1]) then TrimEndIndex(s[..|s| - 1], lo) else |s|
  }

  /** `String.prototype.trim`: the longest slice of `s` with no leading or
      trailing whitespace, all removed characters being whitespace. */
  function Trim(s: string): (r: string)
    ensures |r| <= |s|
    ensures r == [] || (!IsSpace(r[0]) && !IsSpace(r[|r| - 1]))
  {
    var lo := TrimStartIndex(s);
    var hi := TrimEndIndex(s, lo);
    s[lo..hi]
  }

  /** `s` is its trimmed part surrounded by whitespace only. */
  lemma TrimSplit(s: string)
    ensures exists a, b :: AllSpace(a) && AllSpace(b) && s == a + Trim(s) + b
  {
    var lo := TrimStartIndex(s);
    var hi := TrimEndIndex(s, lo);
    assert s == s[..lo] + s[lo..hi] + s[hi..];
    assert AllSpace(s[..lo]);
    assert AllSpace(s[hi..]);
  }

  /** Trim is determined by its specification: whatever whitespace surrounds
      a middle part that neither starts nor ends with whitespace, trim
      returns exactly that middle part. */
  lemma TrimUnique(a: string, mid: string, b: string)
    requires AllSpace(a) && AllSpace(b)
    requires mid == [] || (!IsSpace(mid[0]) && !IsSpace(mid[|mid| - 1]))
    ensures Trim(a + mid + b) == mid
  {
    var s := a + mid + b;
    var lo := TrimStartIndex(s);
    var hi := TrimEndIndex(s, lo);
    if mid == [] {
      assert AllSpace(s);
      assert lo == |s|;
    } else {
      assert s[|a|] == mid[0];
      assert lo == |a|;
      assert s[|a| + |mid| - 1] == mid[|mid| - 1];
      assert hi == |a| + |mid|;
      assert s[lo..hi] == mid;
    }
  }

  /** Trimming twice is trimming once. */
  lemma TrimIdempotent(s: string)
    ensures Trim(Trim(s)) == Trim(s)
  {
    TrimUnique([], Trim(s), []);
    assert [] + Trim(s) + [] == Trim(s);
  }

  // ---------------------------------------------------------------- UTF-16 length

  /** Every code point of `s` lies in the Basic Multilingual Plane. */
  predicate Bmp(s: string)
  {
    forall m :: 0 <= m < |s| ==> s[m] as int <= 0xFFFF
  }

  /** JavaScript's `length`: the number of UTF-16 code units, two for a code
      point above U+FFFF (a surrogate pair) and one for any other. */
  function Utf16Length(s: string): (n: nat)
    ensures |s| <= n <= 2 * |s|
    ensures n == |s| <==> Bmp(s)
  {
    if s == [] then 0
    else
      assert forall m :: 0 <= m < |s| - 1 ==> s[1..][m] == s[m + 1];
      (if s[0] as int > 0xFFFF then 2 else 1) + Utf16Length(s[1..])
  }

  /** One code point is one code unit, or two when it needs a surrogate
      pair; with `Utf16LengthAppend` this fixes the count on every string. */
  lemma Utf16LengthOfChar(c: char)
    ensures Utf16Length([c]) == if c as int > 0xFFFF then 2 else 1
  {
  }

  /** The code units of a concatenation are those of its parts. */
  lemma {:induction false} Utf16LengthAppend(a: string, b: string)
    ensures Utf16Length(a + b) == Utf16Length(a) + Utf16Length(b)
  {
    if a == [] {
      assert a + b == b;
    } else {
      assert (a + b)[0] == a[0];
      assert (a + b)[1..] == a[1..] + b;
      Utf16LengthAppend(a[1..], b);
    }
  }

  // ---------------------------------------------------------------- digits

  /** `s.replace(/\D/g, "")`: the digits of `s`, in order. */
  function Digits(s: string): (r: string)
    ensures |r| <= |s|
    ensures forall m :: 0 <= m < |r| ==> IsDigit(r[m])
    ensures (forall m :: 0 <= m < |s| ==> IsDigit(s[m])) ==> r == s
    ensures forall c :: multiset(r)[c] == if IsDigit(c) then multiset(s)[c] else 0
  {
    if s == [] then []
    else
      assert s == [s[0]] + s[1..];
      if IsDigit(s[0]) then [s[0]] + Digits(s[1..])
      else Digits(s[1..])
  }

  /** One character is kept when it is a digit and deleted otherwise; with
      `DigitsAppend` this fixes the filter on every string. */
  lemma DigitsOfChar(c: char)
    ensures Digits([c]) == if IsDigit(c) then [c] else []
  {
  }

  lemma {:induction false} DigitsAppend(a: string, b: string)
    ensures Digits(a + b) == Digits(a) + Digits(b)
  {
    if a == [] {
      assert a + b == b;
    } else {
      assert (a + b)[1..] == a[1..] + b;
      DigitsAppend(a[1..], b);
    }
  }

  lemma {:induction false} DigitsOfSpace(s: string)
    requires AllSpace(s)
    ensures Digits(s) == []
  {
    if s != [] {
      assert !IsDigit(s[0]);
      DigitsOfSpace(s[1..]);
    }
  }

  /** Deleting non-digits already deletes whitespace, so trimming first
      changes nothing: `c.trim().replace(/\D/g, "")` equals
      `c.replace(/\D/g, "")`. */
  lemma DigitsIgnoreTrim(s: string)
    ensures Digits(Trim(s)) == Digits(s)
  {
    TrimSplit(s);
    var a, b :| AllSpace(a) && AllSpace(b) && s == a + Trim(s) + b;
    DigitsAppend(a + Trim(s), b);
    DigitsAppend(a, Trim(s));
    DigitsOfSpace(a);
    DigitsOfSpace(b);
  }

  // ---------------------------------------------------------------- e-mail shape

  /** The regular expression `\S+@\S+\.\S+` matches `s[a..e]` with its `@` at
      `j` and its `.` at `k`. */
  predicate MatchesAt(s: string, a: int, j: int, k: int, e: int)
  {
    && 0 <= a < j < k < e <= |s|
    && NonSpaceBetween(s, a, j)
    && s[j] == '@'
    && j + 1 < k
    && NonSpaceBetween(s, j + 1, k)
    && s[k] == '.'
    && k + 1 < e
    && NonSpaceBetween(s, k + 1, e)
  }

  /** `/\S+@\S+\.\S+/.test(s)`: some substring of `s` matches. */
  predicate EmailShape(s: string): (ok: bool)
    ensures ok ==> |s| >= 5 && '@' in s && '.' in s
    ensures ok ==> !AllSpace(s)
  {
    exists a, j, k, e | 0 <= a < j < k < e <= |s| :: MatchesAt(s, a, j, k, e)
  }

  /** The shortest match: one non-space character before the `@`, a
      non-space run up to the `.`, one non-space character after it. */
  predicate MinimalMatch(s: string, j: int, k: int)
  {
    && 0 < j && j + 1 < k && k + 1 < |s|
    && !IsSpace(s[j - 1]) && s[j] == '@' && NonSpaceBetween(s, j + 1, k)
    && s[k] == '.' && !IsSpace(s[k + 1])
  }

  /** Every match contains a shortest one, so the pattern matches exactly
      when a shortest match exists. */
  lemma EmailShapeMinimal(s: string)
    ensures EmailShape(s) <==> exists j, k | 0 < j < k < |s| :: MinimalMatch(s, j, k)
  {
    if EmailShape(s) {
      var a, j, k, e :| 0 <= a < j < k < e <= |s| && MatchesAt(s, a, j, k, e);
      assert MinimalMatch(s, j, k);
    }
    if exists j, k | 0 < j < k < |s| :: MinimalMatch(s, j, k) {
      var j, k :| 0 < j < k < |s| && MinimalMatch(s, j, k);
      assert MatchesAt(s, j - 1, j, k, k + 2);
    }
  }

  /** An `@` at `j` preceded by a non-space character, with `s[j..n]` one
      unbroken non-space run. */
  predicate OpenAt(s: string, j: int, n: int)
  {
    0 < j < n <= |s| && s[j] == '@' && !IsSpace(s[j - 1]) && NonSpaceBetween(s, j, n)
  }

  /** No match of the pattern ends at or before `n`. */
  predicate NoMatchBy(s: string, n: int)
  {
    forall a, j, k, e | 0 <= a < j < k < e <= n && e <= |s| :: !MatchesAt(s, a, j, k, e)
  }

  /** A match ending exactly at `n + 1` either has an earlier match ending at
      `n`, or its `.` sits at `n - 1` after an open `@`. */
  lemma MatchEndingAt(s: string, a: int, j: int, k: int, n: int)
    requires 0 <= n < |s|
    requires MatchesAt(s, a, j, k, n + 1)
    ensures k + 1 < n ==> MatchesAt(s, a, j, k, n)
    ensures k + 1 == n ==> OpenAt(s, j, n) && j + 1 < n - 1 && s[n - 1] == '.'
  {
  }

  /** Reading one more non-space character keeps every open `@` open and
      opens a new one exactly when that character is an `@` after a
      non-space character. */
  lemma OpenStep(s: string, j: int, n: int)
    requires 0 <= n < |s| && !IsSpace(s[n])
    ensures OpenAt(s, j, n + 1) <==>
      OpenAt(s, j, n) || (j == n && s[n] == '@' && 0 < n && !IsSpace(s[n - 1]))
  {
  }

  /** A whitespace character closes every open `@`. */
  lemma OpenBreak(s: string, j: int, n: int)
    requires 0 <= n < |s| && IsSpace(s[n])
    ensures !OpenAt(s, j, n + 1)
  {
  }

  /** Decides the e-mail shape in one left-to-right pass, the way a regular
      expression automaton does: `phase` records how much of the pattern the
      current non-space run has completed (0: nothing, 1: `\S@`,
      2: `\S@\S+`, 3: `\S@\S+\.`). */
  method ScanEmail(s: string) returns (found: bool)
    ensures found <==> EmailShape(s)
  {
    var n := 0;
    var phase := 0;
    ghost var at := 0;
    found := false;
    while n < |s| && !found
      invariant 0 <= n <= |s|
      invariant 0 <= phase <= 3
      invariant found ==> EmailShape(s)
      invariant !found ==> NoMatchBy(s, n)
      invariant !found && phase >= 1 ==> OpenAt(s, at, n)
      invariant !found && phase >= 2 ==> at + 1 < n
      invariant !found && phase == 3 ==> at + 1 < n - 1 && s[n - 1] == '.'
      invariant !found && phase == 0 ==> forall j :: !OpenAt(s, j, n)
      invariant !found && phase == 1 ==> forall j :: OpenAt(s, j, n) ==> j == n - 1
      invariant !found && phase <= 2 ==>
        forall j :: OpenAt(s, j, n) && j + 1 < n - 1 ==> s[n - 1] != '.'
      decreases |s| - n, if found then 0 else 1
    {
      var c := s[n];
      if IsSpace(c) {
        forall a, j, k, e | 0 <= a < j < k < e <= n + 1 && e <= |s|
          ensures !MatchesAt(s, a, j, k, e)
        {
          assert e == n + 1 && k + 1 < e ==> !NonSpaceBetween(s, k + 1, e);
        }
        var next := n + 1;
        forall j ensures !OpenAt(s, j, next) {
          OpenBreak(s, j, n);
        }
        phase := 0;
      } else if phase == 3 {
        assert MatchesAt(s, at - 1, at, n - 1, n + 1);
        found := true;
      } else {
        forall a, j, k, e | 0 <= a < j < k < e <= n + 1 && e <= |s|
          ensures !MatchesAt(s, a, j, k, e)
        {
          if e == n + 1 && MatchesAt(s, a, j, k, e) {
            MatchEndingAt(s, a, j, k, n);
          }
        }
        var next := n + 1;
        forall j ensures OpenAt(s, j, next) <==>
          OpenAt(s, j, n) || (j == n && c == '@' && 0 < n && !IsSpace(s[n - 1]))
        {
          OpenStep(s, j, n);
        }
        if phase == 0 {
          if c == '@' && n > 0 && !IsSpace(s[n - 1]) {
            at := n;
            phase := 1;
            assert forall j :: OpenAt(s, j, next) ==> j == n;
          } else {
            assert forall j :: !OpenAt(s, j, next);
          }
        } else if phase == 1 {
          assert at == n - 1;
          assert forall j :: OpenAt(s, j, next) ==> j + 1 >= n;
          phase := 2;
        } else if c == '.' {
          phase := 3;
        } else {
          assert forall j :: OpenAt(s, j, next) && j + 1 < n ==> s[n] != '.';
        }
      }
      n := n + 1;
    }
  }
}
